=== FILE: README.md ===
# Image-as-video planning, modelled in Dafny

This project models the part of StableSwarmUI's "image as video" feature that
is the feature's own logic, `src/Utils/Video.cs`. A user picks an image. The
handler `ImageAsVideo` gathers the sibling images of the same extension and
resolution, sorted by creation time. It turns them into one or two playback
passes and streams each image to an external encoder a computed number of
times. The model covers everything the handler decides before and around
those encoder calls:

- **Validation** (`Video.Validate`). The file must exist. The frame effect must
  be "ping", "pong" or "ping-pong". The shape must be "linear" or "rounded".
  The duration must be positive. The checks run in that order and the first
  failure decides the error message. The smoothing mode is never checked.
- **Planning** (`Video.Prepare`). This covers the pass duration (half the
  duration for ping-pong), the image budget `maxImages = (int)(period * FPS)`,
  the two-pass downselection, the pass order (forward, reversed, or forward
  then reversed) and the interpolation filter handed to the encoder.
- **Downselection** (`Selection`). First a stride pass keeps the positions
  divisible by `step = n / maxImages`. If that is still over budget, a second
  pass cuts the closed window `[mid - midStep, mid + midStep]` out of the middle.
  The window has `2 * midStep + 1` slots. For an excess `d` that is one more
  than `d` when `d` is even, and `d` or `d + 2` when `d` is odd. So the result
  always fits the budget, and for a budget of 3 or more it falls short by at
  most two.
- **Frame schedule** (`Frames`). Image `i` of `n` gets
  `round(fps * (duration / n) * scalar(i, n))` frames, with `Math.Round`
  rounding half to even. Images with a non-positive count are skipped. The last
  image is padded toward `round(fps * duration)`. A frame is modelled as the
  index of its image.
- **Duration scalar** (`Easing`). "linear" is the constant 1.0. "rounded" is
  the quartic `1.5 - (u^2 - 1)^2` of `u = 2i/n - 1`. It is 1.5 at both ends and
  0.5 in the middle, stays in `[0.5, 1.5]`, is symmetric, and falls over the
  first half.
- **Response** (`Video.ImageAsVideo`). It returns an error message, the
  output path relative to the web root, or an exception that escapes. The
  exception case is an empty web root, which makes `String.Replace` throw.

The file system and the encoder are parameters. These are: whether the input
file exists, the already filtered and sorted candidate list (a `seq<T>` of
opaque images), and whether each encoder run succeeds.

Two places in the source do not do what their comments say (see Findings).
The handler therefore takes a `Video.Reading`:

- `AsWritten` computes what the code computes. The rate is 29 fps, because
  `30000/1001` is an integer division. The last image is padded from the total
  of the images before it.
- `AsIntended` is the same handler with both defects corrected: about 29.97 fps
  (30000/1001), and the last image topped up to the pass's frame target.

Every handler-level member (`Prepare`, `ImageAsVideo`, `VideoFrames` and the
lemmas about them) holds under both readings. Where a row gives a value, it
names the reading that value belongs to.

The comment at line 43 says the last frame is padded "to reach the target
frame count". Neither reading trims a pass whose rounded counts already
exceed the target. So the model proves that every pass has at least its
target, not that it hits the target exactly. Under `AsIntended` a pass has
exactly the larger of its unpadded total and the target.

## Model

| member | source | states |
|---|---|---|
| Rounding.Trunc | src/Utils/Video.cs:225 | the `(int)` cast truncates toward zero: the result is the integer part of a non-negative argument and the ceiling of a negative one |
| Rounding.RoundHalfEven | src/Utils/Video.cs:41 | `Math.Round` gives an integer within one half of its argument, and the even neighbour on a tie |
| Easing.Scalar | src/Utils/Video.cs:243-251 | "linear" is 1.0 everywhere; for any position between 0 and the pass length both shapes stay in [0.5, 1.5] |
| Easing.RoundedIsQuartic | src/Utils/Video.cs:247-251 | the rounded lambda equals `1.5 - (u^2 - 1)^2` for the normalised position `u = 2x/n - 1` |
| Easing.RoundedEnds | src/Utils/Video.cs:246 | the rounded scalar is 1.5 at the start and at the end of the pass |
| Easing.RoundedMidpoint | src/Utils/Video.cs:246 | the rounded scalar is 0.5 at the midpoint, which is image n/2 when n is even |
| Easing.RoundedSymmetric | src/Utils/Video.cs:248-250 | the rounded scalar takes the same value at x and at n - x |
| Easing.RoundedDecreasing | src/Utils/Video.cs:246-250 | over the first half of the pass the rounded scalar never increases |
| Selection.Stride | src/Utils/Video.cs:229-231 | the stride filter keeps ceil(n/step) elements, and its k-th element is the input's element k*step |
| Selection.StrideKeepsMultiples | src/Utils/Video.cs:231 | a position survives the stride pass if and only if it is in range and divisible by step, so position 0 always survives |
| Selection.StrideReachesBudget | src/Utils/Video.cs:227-231 | when n exceeds the budget, step = n / maxImages is at least 1 and the stride pass keeps at least maxImages images |
| Selection.Outside | src/Utils/Video.cs:237 | filtering by `i < lo \|\| i > hi` keeps exactly the part before the closed window [lo, hi] and the part after it, in order |
| Selection.OutsideKeepsOutside | src/Utils/Video.cs:237 | a position survives the trim filter if and only if it is in range and outside [lo, hi] |
| Selection.MidStep | src/Utils/Video.cs:236 | midStep is at least 1; it is 1 when the excess d is at most 2, and otherwise 2·midStep - 1 <= d <= 2·midStep + 1 |
| Selection.MidStepWindow | src/Utils/Video.cs:235-237 | midStep is at least 1; the cut window has d + 1 slots for an even excess d, and d or d + 2 slots for an odd one |
| Selection.Trim | src/Utils/Video.cs:233-238 | the middle trim keeps everything before mid - midStep and after mid + midStep, in order, and nothing else |
| Selection.TrimLength | src/Utils/Video.cs:233-238 | after the trim the list fits the budget; with a budget of at least 3 it is short of the budget by at most two |
| Selection.Downselect | src/Utils/Video.cs:226-239 | a list within budget is unchanged; a list over budget ends within budget, and with a budget of at least 3 at most two short of it |
| Selection.DownselectKeepsOrder | src/Utils/Video.cs:226-239 | the result is the input read at strictly rising positions that depend only on the list's length: an order-preserving subsequence |
| Frames.Schedule | src/Utils/Video.cs:48-62 | the frames come out in input order; image i fills exactly one contiguous block, as long as its emitted count |
| Frames.ScheduleCounts | src/Utils/Video.cs:48-61 | every image with a positive count occurs exactly that many times; an image with a count of 0 or less occurs not at all |
| Frames.ScheduleInOrder | src/Utils/Video.cs:38-61 | a later frame never shows an earlier image |
| Frames.FrameCount | src/Utils/Video.cs:41 | an image shown for a non-negative time at a non-negative rate gets a non-negative frame count |
| Frames.BaseCount | src/Utils/Video.cs:37-41 | with non-negative rate and duration, the unpadded count of every image is non-negative |
| Frames.LinearCountsEqual | src/Utils/Video.cs:37-41 | under the linear shape every image of a pass gets the same count, round(fps * duration / n) |
| Frames.CreateFramesLoop | src/Utils/Video.cs:27-65 | the loop with its running total emits exactly the frames of the functional schedule with the as-written padding |
| Frames.TargetFrameCount | src/Utils/Video.cs:35 | the pass target is the whole number nearest fps × duration, and it is non-negative for a non-negative rate and duration |
| Frames.PadAsWritten | src/Utils/Video.cs:43-47 | as written, every count but the last is kept; the last is never lowered, and it is raised exactly when the images before it fall short of the target |
| Frames.CreateFrames | src/Utils/Video.cs:27-64 | as written, every frame is an image of the pass; every image before the last is shown exactly its own count (0 if that is not positive), and the last at least its own |
| Frames.AsWrittenTotal | src/Utils/Video.cs:35-62 | with the as-written padding, a pass has target + c_last frames when the earlier images fall short of the target, and its unpadded total otherwise |
| Frames.PaddingOvershoots | src/Utils/Video.cs:43-47 | for 2 images at 29 fps over one second, linear: counts 14 and 14, target 29, and the pass gets 43 frames |
| Frames.PadToTarget | src/Utils/Video.cs:43-47 | as intended, every count but the last is kept; the last is never lowered, and it is raised exactly when the whole pass falls short of the target |
| Frames.CreateFramesToTarget | src/Utils/Video.cs:27-64 | as intended, every frame is an image of the pass; every image before the last is shown exactly its own count, and the last at least its own |
| Frames.ToTargetTotal | src/Utils/Video.cs:43-47 | with the intended padding a pass has exactly the larger of its unpadded total and the target |
| Frames.Counts | src/Utils/Video.cs:37-41 | a pass of n images has n unpadded counts, and the count of image i is round(fps * (duration / n) * scalar(i, n)) |
| Frames.PassFrames | src/Utils/Video.cs:27-64 | every frame of a pass is an image of the pass, and every image before the last is shown its computed count (0 if that is not positive) |
| Frames.PassFramesMeetTarget | src/Utils/Video.cs:35-62 | under either padding rule, a non-empty pass has at least round(fps * duration) frames, and every image before the last occurs exactly its computed count times |
| Text.Join | src/Utils/Video.cs:179 | the joined list is empty for no items and is the item itself for one item |
| Text.JoinEnds | src/Utils/Video.cs:179 | a joined non-empty list starts with its first item and ends with its last |
| Text.JoinSnoc | src/Utils/Video.cs:179 | appending an item to a non-empty list appends the separator and then the item to the joined text |
| Text.ReplaceChar | src/Utils/Video.cs:283 | replacing a character removes every occurrence of it, puts the replacement at each of its positions and leaves the other characters in place |
| Text.ReplaceCharConcat | src/Utils/Video.cs:283 | character replacement works piece by piece: replacing in a concatenation is concatenating the replaced pieces |
| Text.ReplaceAll | src/Utils/Video.cs:283 | every character of the result of substring replacement comes from the input or from the replacement |
| Text.ReplaceAbsent | src/Utils/Video.cs:283 | replacing a substring that does not occur leaves the string unchanged |
| Text.ReplaceLeading | src/Utils/Video.cs:283 | a leading occurrence is replaced and the scan resumes right after it |
| Text.TrimStart | src/Utils/Video.cs:283 | TrimStart removes exactly the leading run of the character: the result is a suffix that does not start with it, and all removed characters were it |
| Video.ParseEffect | src/Utils/Video.cs:143 | a string names an effect if and only if it is one of the three listed values, and then it is that effect's name |
| Video.EffectNameRoundTrip | src/Utils/Video.cs:143 | every effect's name is listed and parses back to the same effect |
| Video.ParseShape | src/Utils/Video.cs:144 | a string names a shape if and only if it is "linear" or "rounded", and then it is that shape's name |
| Video.ShapeNameRoundTrip | src/Utils/Video.cs:144 | every shape's name is listed and parses back to the same shape |
| Video.Rate | src/Utils/Video.cs:168 | the handler's rate is at least 29 fps: exactly 29 as written, and between 29.97 and 29.98 as intended |
| Video.Validate | src/Utils/Video.cs:170-190 | the request is accepted if and only if the file exists, the effect and shape are listed and the duration is positive; otherwise the first failing check, in that order, gives the error |
| Video.MessagesListValues | src/Utils/Video.cs:179-184 | the error messages list the accepted values as "ping, pong, ping-pong" and "linear, rounded" |
| Video.SmoothingOptionsModes | src/Utils/Video.cs:145 | the three advertised smoothing options "off", "fast" and "quality" select no interpolation, blending and motion-compensated interpolation |
| Video.SmoothingNotValidated | src/Utils/Video.cs:145 | changing the smoothing mode never changes the outcome of validation |
| Video.PeriodDuration | src/Utils/Video.cs:192-196 | a pass lasts half the duration for ping-pong (two passes) and the whole duration otherwise; it is non-negative and no longer than the duration |
| Video.MaxImages | src/Utils/Video.cs:225 | the budget is the period's frame count at the rate, truncated toward zero |
| Video.BudgetAtLeastFourteen | src/Utils/Video.cs:225-230 | for any accepted duration and a rate of at least 29 fps the budget is at least 14, so the stride never divides by zero |
| Video.FpsAsWrittenIsTwentyNine | src/Utils/Video.cs:168 | the constant as written is 29, below 30000/1001; at that rate a 2 s "ping" has a budget of 58 images and a 10 s pass a target of 290 frames |
| Video.BudgetAsWritten | src/Utils/Video.cs:225 | at 29 fps the budget is 29 * duration for one pass and floor(29 * duration / 2) for each ping-pong pass |
| Video.IntendedRate | src/Utils/Video.cs:168 | the intended rate lies strictly between 29.97 and 29.98; a 2 s "ping" then has a budget of 59 images and a 10 s pass a target of 300 frames |
| Video.Reverse | src/Utils/Video.cs:266 | the reversed list has the same length and holds element n-1-k at position k |
| Video.PassImages | src/Utils/Video.cs:254-270 | a pass's frames are all images of that pass, and an empty pass has none |
| Video.VideoFrames | src/Utils/Video.cs:254-270 | every frame of the video is an image of one of the passes, and no passes give no frames |
| Video.Passes | src/Utils/Video.cs:256-270 | ping-pong plays two passes and the others one; every effect except "pong" starts with the forward list, and every effect except "ping" ends with the reversed list |
| Video.PassesCoverDuration | src/Utils/Video.cs:192-196 | the periods of the passes add up to the requested duration, and each pass holds the same images as the list; the frame stream can be longer, because each pass pads its own last image |
| Video.PingPongIsPalindrome | src/Utils/Video.cs:256-270 | the forward list followed by the reversed list reads the same backwards; the frame stream does not in general, because each pass pads its own last image |
| Video.InterpolationFor | src/Utils/Video.cs:122-130 | "fast" and only "fast" blends; "quality" and only "quality" interpolates motion; every other value turns smoothing off |
| Video.CustomArgs | src/Utils/Video.cs:122-130 | the encoder argument is empty exactly when smoothing is off, and otherwise a minterpolate filter at the given rate ending in the chosen mode |
| Video.RelativePath | src/Utils/Video.cs:283 | the path exists if and only if the web root is non-empty; it then has no backslash and does not start with a slash |
| Video.RelativePathBelowRoot | src/Utils/Video.cs:283 | a path of the form root + separator + rest, with `/` or `\` as the separator and backslashes anywhere, comes back as rest with forward slashes, as long as the rest does not start with a separator and the root does not occur again in the rest |
| Video.WindowsPathBelowRoot | src/Utils/Video.cs:283 | the Windows path `C:\www\out\v.mp4` under the root `C:\www` comes back as `out/v.mp4` |
| Video.Prepare | src/Utils/Video.cs:158-239 | validation errors pass through; fewer than two candidates is an error. Otherwise the budget is (int)(period × rate): as written, 29·d for one pass and floor(29·d/2) for ping-pong. It is at least 14, and the passes hold the downselected list: at least 2 images, within budget, and unchanged when the candidates already fit. The filter is chosen from frameSmoothing: blending exactly for "fast", motion-compensated interpolation exactly for "quality" |
| Video.ImageAsVideo | src/Utils/Video.cs:158-290 | the first failure decides the response: the planning error, then "Failed to generate ping video." when the forward run fails (unless the effect is pong), then the pong message when the reversed run fails (unless it is ping), then "Failed to generate video.". A video path comes back exactly when planning, every run the effect makes and the final encode succeed and the web root is non-empty; it is then the relative path. An exception escapes exactly when all of that holds but the web root is empty |
| Video.RateSetsSelection | src/Utils/Video.cs:168-239 | a 10 s "ping" over 295 candidates keeps at most 290 images as written, and all 295 as intended |
| Video.OnlyRunPassesMatter | src/Utils/Video.cs:256-270 | the outcome of the forward encode does not matter for "pong", and that of the reversed encode does not matter for "ping" |
| Video.VideoMeetsTargets | src/Utils/Video.cs:254-270 | under either reading, the video has at least the frame target of one period for every pass, at the reading's rate |
| Video.PreparedVideoMeetsTargets | src/Utils/Video.cs:254-270 | under either reading, for an accepted request every pass has at least 2 images and the video meets the frame target of every pass |

## Findings

| source | as written | input that shows it | evidently intended | confidence | as-written member | corrected member |
|---|---|---|---|---|---|---|
| src/Utils/Video.cs:168 | `30000/1001` divides two integers, so `FPS` is 29.0 | any request: the budget and the frame targets use 29 fps | 30000.0/1001, about 29.97 fps, as the comment on the same line says | high; not executed | Video.FpsAsWrittenIsTwentyNine | Video.IntendedRate |
| src/Utils/Video.cs:43-47 | the shortfall is measured before the last image's own count is added, so a short pass gets `target + c_last` frames | 2 images, 29 fps, 1 s, linear: counts 14 and 14, target 29, 43 frames | the last image is topped up so that the pass has exactly the target, as the comment on line 43 says | high; not executed | Frames.PaddingOvershoots | Frames.ToTargetTotal |

## Left out

- File system: `File.Exists`, `Directory.GetFiles`, the resolution filter, the creation-time sort and file deletion. The model takes whether the input exists and the filtered, sorted candidate list as inputs.
- Image decoding and the frame wrappers. A frame is the index of its image, or the opaque image value.
- Every FFmpeg invocation: pipes, bitrate, codec, container format, `minterpolate` itself and the shared memory stream. Each run's success is an input, and only the choice of filter argument is modelled.
- Formatting of the frame rate into the filter string. `Video.CustomArgs` takes the text as a parameter.
- Logging, `async`/`await` and the JSON object. The response is a datatype.
- IEEE-754 doubles. All duration, rate and scalar arithmetic is on exact reals, and `Math.Pow` is written as products, so results can differ from C# at rounding boundaries.
- The 32-bit range of `duration` and `maxImages`. A duration above about 74 million seconds makes the `(int)` cast at line 225 go out of range, and the `int` frame counts and running total at lines 35, 41 and 62 overflow once `fps * duration` passes 2^31 - 1 frames. What that produces depends on the .NET runtime, and the model's integers are unbounded.
- Selection.Downselect: requires a budget of at least 1. The source would divide by zero at 0, and a negative budget only arises from the out-of-range cast above. `Video.Prepare` proves the budget is at least 14.
- Frames.PassFramesMeetTarget: states the exact count only for images before the last, because the last image's count is the padded one.
- Video.VideoMeetsTargets: states a lower bound instead of an exact total, because nothing trims a pass whose rounded counts already exceed the target.
- The duration default (`< 1` becomes 10) in `src/wwwroot/js/genpage/image_as_video_editor.js` is browser UI and is not modelled.

=== FILE: downselect.dfy ===
/**
  Downselection of the candidate images to the frame budget `maxImages`.
  When there are more candidates than the budget, the list is first thinned
  by keeping every `step`-th image, and if that is still too many, a
  contiguous window around the middle of the thinned list is cut out. Images
  are opaque values; only their positions matter.
 */
module Selection {
  import opened Rounding

  // Integer arithmetic used by the closed forms below.

  /** `ceil(n / step)`: how many multiples of `step` lie in `[0, n)`. */
  function CeilDiv(n: nat, step: nat): nat
    requires step > 0
  {
    (n + step - 1) / step
  }

  lemma DivUnique(a: int, b: int, q: int)
    requires b > 0 && q * b <= a < q * b + b
    ensures a / b == q
  {
    var d := a / b;
    assert a == d * b + a % b;
    if d > q {
      MultiplyMonotone(q + 1, d, b);
      assert false;
    } else if d < q {
      MultiplyMonotone(d + 1, q, b);
      assert false;
    }
  }

  lemma MultiplyMonotone(x: int, y: int, b: int)
    requires x <= y && b >= 0
    ensures x * b <= y * b
  {
    assert y * b - x * b == (y - x) * b;
  }

  /** Going from `j` to `j + 1` adds one multiple of `step` exactly when `j` is one. */
  lemma CeilDivStep(j: nat, step: nat)
    requires step > 0
    ensures j % step == 0 ==> CeilDiv(j + 1, step) == CeilDiv(j, step) + 1 && CeilDiv(j, step) * step == j
    ensures j % step != 0 ==> CeilDiv(j + 1, step) == CeilDiv(j, step)
  {
    var q, r := j / step, j % step;
    assert j == q * step + r;
    assert (q + 1) * step == q * step + step;
    assert (q + 2) * step == q * step + step + step;
    if r == 0 {
      DivUnique(j + step - 1, step, q);
      DivUnique(j + step, step, q + 1);
      assert CeilDiv(j, step) == q;
    } else {
      DivUnique(j + step - 1, step, q + 1);
      DivUnique(j + step, step, q + 1);
    }
  }

  /** The `CeilDiv(n, step)` multiples cover `[0, n)` and the last one is below `n`. */
  lemma CeilDivBounds(n: nat, step: nat)
    requires step > 0
    ensures n <= CeilDiv(n, step) * step
    ensures n > 0 ==> (CeilDiv(n, step) - 1) * step < n
  {
    var a := n + step - 1;
    var c := CeilDiv(n, step);
    assert a == c * step + a % step;
    assert (c - 1) * step == c * step - step;
  }

  /** `Clamp(x, n)`: `x` forced into `[0, n]`, the bound a slice may use. */
  function Clamp(x: int, n: nat): (r: nat)
    ensures r <= n
  {
    if x < 0 then 0 else if x > n then n else x
  }

  /** The stride pass `files.Where((_, i) => i % step == 0)`, over the first `n`
      elements of `s`: it keeps element `k * step` as its `k`-th element, and
      keeps `ceil(n / step)` of them. */
  function Stride<T>(s: seq<T>, step: nat, n: nat): (r: seq<T>)
    requires step > 0 && n <= |s|
    ensures |r| == CeilDiv(n, step)
    ensures forall k :: 0 <= k < |r| ==> k * step < n && r[k] == s[k * step]
  {
    if n == 0 then []
    else
      CeilDivStep(n - 1, step);
      Stride(s, step, n - 1) + (if (n - 1) % step == 0 then [s[n - 1]] else [])
  }

  /** The trim pass `files.Where((_, i) => i < lo || i > hi)`, over the first `n`
      elements of `s`: exactly the closed window `[lo, hi]` is cut out. */
  function Outside<T>(s: seq<T>, lo: int, hi: int, n: nat): (r: seq<T>)
    requires n <= |s|
    ensures lo <= hi + 1 ==> r == s[..Clamp(lo, n)] + s[Clamp(hi + 1, n)..n]
  {
    if n == 0 then []
    else
      Outside(s, lo, hi, n - 1) + (if n - 1 < lo || n - 1 > hi then [s[n - 1]] else [])
  }

  /** `midStep = (int)Math.Round(Math.Max(1, (m - maxImages) / 2.0))`: half the
      excess `d = m - maxImages`, rounded, and never less than 1. */
  function MidStep(m: int, maxImages: int): (r: int)
    ensures r >= 1
    ensures m - maxImages <= 2 ==> r == 1
    ensures m - maxImages >= 2 ==> 2 * r - 1 <= m - maxImages <= 2 * r + 1
  {
    var half := (m - maxImages) as real / 2.0;
    RoundHalfEven(if 1.0 < half then half else 1.0)
  }

  /** The window `[mid - midStep, mid + midStep]` has `2 * midStep + 1` slots:
      one more than the excess `d` when `d` is even, and `d` or `d + 2` when it is odd. */
  lemma MidStepWindow(m: int, maxImages: int)
    requires m > maxImages
    ensures var d, w := m - maxImages, 2 * MidStep(m, maxImages) + 1;
      && MidStep(m, maxImages) >= 1
      && (d % 2 == 0 ==> w == d + 1)
      && (d % 2 == 1 ==> w == d || w == d + 2)
  {
    var d := m - maxImages;
    var half := d as real / 2.0;
    if d == 1 {
      RoundHalfEvenUnique(1.0, 1);
    } else if d % 2 == 0 {
      assert half == (d / 2) as real;
      RoundHalfEvenUnique(half, d / 2);
    } else {
      var k := d / 2;
      assert half == k as real + 0.5;
      if k % 2 == 0 {
        RoundHalfEvenUnique(half, k);
      } else {
        RoundHalfEvenUnique(half, k + 1);
      }
    }
  }

  /** The second pass: cut `[mid - midStep, mid + midStep]` out of `s`, with `mid = |s| / 2`. */
  function Trim<T>(s: seq<T>, maxImages: int): (r: seq<T>)
    requires |s| > maxImages
    ensures var lo, hi := |s| / 2 - MidStep(|s|, maxImages), |s| / 2 + MidStep(|s|, maxImages);
      r == s[..Clamp(lo, |s|)] + s[Clamp(hi + 1, |s|)..]
  {
    MidStepWindow(|s|, maxImages);
    var mid := |s| / 2;
    var midStep := MidStep(|s|, maxImages);
    Outside(s, mid - midStep, mid + midStep, |s|)
  }

  /** The trim meets the budget; when the budget is at least 3 the window lies
      inside the list, so the result is short of the budget by at most two. */
  lemma TrimLength<T>(s: seq<T>, maxImages: int)
    requires |s| > maxImages >= 1
    ensures |Trim(s, maxImages)| <= maxImages
    ensures maxImages >= 3 ==> maxImages - 2 <= |Trim(s, maxImages)|
    ensures maxImages >= 3 ==> |Trim(s, maxImages)| == |s| - (2 * MidStep(|s|, maxImages) + 1)
  {
    MidStepWindow(|s|, maxImages);
  }

  /** The stride pass with `step = n / maxImages` never falls below the budget. */
  lemma StrideReachesBudget(n: nat, maxImages: int)
    requires n > maxImages >= 1
    ensures n / maxImages >= 1
    ensures CeilDiv(n, n / maxImages) >= maxImages
  {
    var step := n / maxImages;
    assert n == step * maxImages + n % maxImages;
    var c := CeilDiv(n, step);
    CeilDivBounds(n, step);
    if c < maxImages {
      MultiplyMonotone(c, maxImages - 1, step);
      assert false;
    }
  }

  /** Both passes, as `ImageAsVideo` applies them to the sorted candidates. */
  function Downselect<T>(files: seq<T>, maxImages: int): (r: seq<T>)
    requires maxImages >= 1
    ensures |files| <= maxImages ==> r == files
    ensures |files| > maxImages ==> |r| <= maxImages
    ensures |files| > maxImages >= 3 ==> maxImages - 2 <= |r|
  {
    if |files| > maxImages then
      StrideReachesBudget(|files|, maxImages);
      var step := |files| / maxImages;
      var strided := Stride(files, step, |files|);
      if |strided| > maxImages then
        TrimLength(strided, maxImages);
        Trim(strided, maxImages)
      else
        strided
    else
      files
  }

  /** Positions `0 .. n - 1`. */
  function Range(n: nat): (r: seq<nat>)
    ensures |r| == n && forall i :: 0 <= i < n ==> r[i] == i
  {
    seq(n, i => i)
  }

  /** The elements of `s` at the positions `idx`, in that order. */
  function Select<T>(s: seq<T>, idx: seq<nat>): (r: seq<T>)
    requires forall k :: 0 <= k < |idx| ==> idx[k] < |s|
    ensures |r| == |idx| && forall k :: 0 <= k < |idx| ==> r[k] == s[idx[k]]
  {
    seq(|idx|, k requires 0 <= k < |idx| => s[idx[k]])
  }

  ghost predicate Increasing(idx: seq<nat>)
  {
    forall a, b :: 0 <= a < b < |idx| ==> idx[a] < idx[b]
  }

  /** The stride pass keeps exactly the positions divisible by `step`; in particular position 0. */
  lemma StrideKeepsMultiples(n: nat, step: nat, i: int)
    requires step > 0
    ensures i in Stride(Range(n), step, n) <==> 0 <= i < n && i % step == 0
  {
    if i in Stride(Range(n), step, n) {
      StrideOnlyMultiples(n, step, i);
    }
    if 0 <= i < n && i % step == 0 {
      StrideEveryMultiple(n, step, i);
    }
  }

  lemma StrideOnlyMultiples(n: nat, step: nat, i: int)
    requires step > 0 && i in Stride(Range(n), step, n)
    ensures 0 <= i < n && i % step == 0
  {
    var r := Stride(Range(n), step, n);
    var k :| 0 <= k < |r| && r[k] == i;
    assert i == k * step;
    MultipleModulo(k, step);
  }

  lemma MultipleModulo(k: nat, step: nat)
    requires step > 0
    ensures (k * step) % step == 0
  {
    var a := k * step;
    DivUnique(a, step, k);
    assert a == step * (a / step) + a % step;
    assert step * (a / step) == a;
  }

  lemma StrideEveryMultiple(n: nat, step: nat, i: int)
    requires step > 0 && 0 <= i < n && i % step == 0
    ensures i in Stride(Range(n), step, n)
  {
    var r := Stride(Range(n), step, n);
    var k := i / step;
    assert i == k * step by {
      assert i == step * (i / step) + i % step;
    }
    assert k < |r| by {
      CeilDivBounds(n, step);
      if k >= |r| {
        MultiplyMonotone(|r|, k, step);
      }
    }
    assert r[k] == Range(n)[k * step];
  }

  /** The trim pass keeps exactly the positions outside `[lo, hi]`. */
  lemma OutsideKeepsOutside(n: nat, lo: int, hi: int, i: int)
    requires lo <= hi + 1
    ensures i in Outside(Range(n), lo, hi, n) <==> 0 <= i < n && (i < lo || i > hi)
  {
    var s := Range(n);
    var r := Outside(s, lo, hi, n);
    var a, b := Clamp(lo, n), Clamp(hi + 1, n);
    assert r == s[..a] + s[b..n];
    if 0 <= i < n && (i < lo || i > hi) {
      if i < lo {
        assert s[..a][i] == i;
      } else {
        assert s[b..n][i - b] == i;
      }
    }
  }

  /** The positions downselection keeps out of `n` candidates. */
  function Kept(n: nat, maxImages: int): seq<nat>
    requires maxImages >= 1
  {
    Downselect(Range(n), maxImages)
  }

  /** Downselection only looks at positions: it selects the same positions of
      any list of the same length, and those positions rise strictly, so the
      result is an order-preserving subsequence of the candidates. */
  lemma DownselectKeepsOrder<T>(files: seq<T>, maxImages: int)
    requires maxImages >= 1
    ensures forall k :: 0 <= k < |Kept(|files|, maxImages)| ==> Kept(|files|, maxImages)[k] < |files|
    ensures Increasing(Kept(|files|, maxImages))
    ensures Downselect(files, maxImages) == Select(files, Kept(|files|, maxImages))
  {
    var n := |files|;
    if n > maxImages {
      StrideReachesBudget(n, maxImages);
      var step := n / maxImages;
      StrideIncreasing(n, step);
      StrideSelect(files, step);
      if CeilDiv(n, step) > maxImages {
        TrimStrideKeepsOrder(files, maxImages);
      }
    } else {
      assert files == Select(files, Range(n));
    }
  }

  lemma TrimStrideKeepsOrder<T>(files: seq<T>, maxImages: int)
    requires |files| > maxImages >= 1
    requires CeilDiv(|files|, |files| / maxImages) > maxImages
    ensures forall k :: 0 <= k < |Kept(|files|, maxImages)| ==> Kept(|files|, maxImages)[k] < |files|
    ensures Increasing(Kept(|files|, maxImages))
    ensures Downselect(files, maxImages) == Select(files, Kept(|files|, maxImages))
  {
    var n := |files|;
    StrideReachesBudget(n, maxImages);
    var step := n / maxImages;
    var si := Stride(Range(n), step, n);
    StrideSelect(files, step);
    StrideIncreasing(n, step);
    TrimSelect(files, si, maxImages);
    var t := Trim(si, maxImages);
    assert Kept(n, maxImages) == t;
    assert Downselect(files, maxImages) == Trim(Stride(files, step, n), maxImages);
    assert Stride(files, step, n) == Select(files, si);
    assert Trim(Select(files, si), maxImages) == Select(files, t);
  }

  lemma StrideSelect<T>(files: seq<T>, step: nat)
    requires step > 0
    ensures var idx := Stride(Range(|files|), step, |files|);
      && (forall k :: 0 <= k < |idx| ==> idx[k] < |files|)
      && Stride(files, step, |files|) == Select(files, idx)
  {
  }

  lemma TrimSelect<T>(files: seq<T>, idx: seq<nat>, maxImages: int)
    requires |idx| > maxImages
    requires forall k :: 0 <= k < |idx| ==> idx[k] < |files|
    requires Increasing(idx)
    ensures var t := Trim(idx, maxImages);
      && (forall k :: 0 <= k < |t| ==> t[k] < |files|)
      && Increasing(t)
      && Trim(Select(files, idx), maxImages) == Select(files, t)
  {
    var mid := |idx| / 2;
    var ms := MidStep(|idx|, maxImages);
    var a, b := Clamp(mid - ms, |idx|), Clamp(mid + ms + 1, |idx|);
    var t := Trim(idx, maxImages);
    assert t == idx[..a] + idx[b..];
    var sel := Select(files, idx);
    assert Trim(sel, maxImages) == sel[..a] + sel[b..];
    assert a <= b by {
      MidStepWindow(|idx|, maxImages);
    }
    WindowSelect(files, idx, a, b);
  }

  /** Cutting the positions `[a, b)` out commutes with selection and keeps positions rising. */
  lemma WindowSelect<T>(files: seq<T>, idx: seq<nat>, a: nat, b: nat)
    requires a <= b <= |idx|
    requires forall k :: 0 <= k < |idx| ==> idx[k] < |files|
    requires Increasing(idx)
    ensures var t := idx[..a] + idx[b..];
      && (forall k :: 0 <= k < |t| ==> t[k] < |files|)
      && Increasing(t)
      && Select(files, idx)[..a] + Select(files, idx)[b..] == Select(files, t)
  {
    var t := idx[..a] + idx[b..];
    forall x, y | 0 <= x < y < |t|
      ensures t[x] < t[y]
    {
      var px := if x < a then x else x - a + b;
      var py := if y < a then y else y - a + b;
      assert t[x] == idx[px] && t[y] == idx[py];
    }
  }

  lemma StrideIncreasing(n: nat, step: nat)
    requires step > 0
    ensures Increasing(Stride(Range(n), step, n))
  {
    var rng := Range(n);
    var r := Stride(rng, step, n);
    forall x, y | 0 <= x < y < |r|
      ensures r[x] < r[y]
    {
      assert x * step < n && y * step < n;
      assert r[x] == rng[x * step] == x * step;
      assert r[y] == rng[y * step] == y * step;
      MultiplyMonotone(x + 1, y, step);
      assert (x + 1) * step == x * step + step;
    }
  }
}

=== FILE: easing.dfy ===
/**
  The per-image duration scalar chosen by the frame effect shape: a weight
  that multiplies the average per-image duration. "linear" weighs every image
  equally; "rounded" is an inverted quartic bell that lingers on the first and
  last images of a pass and hurries through the middle.
 */
module Easing {

  /** The accepted frame effect shapes. */
  datatype Shape = Linear | Rounded

  /** `x` mapped from `[0, waveLength]` onto `[-1, 1]`, with 0 at the midpoint. */
  function NormX(x: real, waveLength: int): real
    requires waveLength > 0
  {
    (x / waveLength as real) * 2.0 - 1.0
  }

  /** The duration scalar of the image at index `x` of a pass of `waveLength`
      images. The rounded curve is `-(u^4 - 2u^2) + 0.5` in the normalised `u`;
      `Math.Pow(u, 4)` and `Math.Pow(u, 2)` are written as products. */
  function Scalar(shape: Shape, x: real, waveLength: int): (r: real)
    requires waveLength > 0
    ensures shape == Linear ==> r == 1.0
    ensures 0.0 <= x <= waveLength as real ==> 0.5 <= r <= 1.5
  {
    match shape
    case Linear => 1.0
    case Rounded =>
      NormXInRange(x, waveLength);
      QuarticBounds(NormX(x, waveLength));
      Quartic(NormX(x, waveLength))
  }

  /** `-(u^4 - 2u^2) + 0.5`, the rounded curve in the normalised coordinate. */
  function Quartic(u: real): real
  {
    -1.0 * (u * u * u * u - 2.0 * (u * u)) + 0.5
  }

  lemma NormXInRange(x: real, waveLength: int)
    requires waveLength > 0
    ensures 0.0 <= x <= waveLength as real ==> -1.0 <= NormX(x, waveLength) <= 1.0
  {
    var n := waveLength as real;
    if 0.0 <= x <= n {
      assert 0.0 <= x / n <= 1.0 by {
        assert x / n * n == x;
      }
    }
  }

  /** For `u` in `[-1, 1]` the quartic `-(u^4 - 2u^2) + 0.5` stays in `[0.5, 1.5]`. */
  lemma QuarticBounds(u: real)
    ensures -1.0 <= u <= 1.0 ==> 0.5 <= Quartic(u) <= 1.5
  {
    if -1.0 <= u <= 1.0 {
      QuarticForm(u);
      SquareOfUnit(u);
      SquareOfUnit(u * u - 1.0);
    }
  }

  lemma QuarticForm(u: real)
    ensures Quartic(u) == 1.5 - (u * u - 1.0) * (u * u - 1.0)
  {
    var v := u * u;
    assert u * u * u * u == v * v;
  }

  /** Squaring keeps a number of `[-1, 1]` inside `[0, 1]`. */
  lemma SquareOfUnit(a: real)
    requires -1.0 <= a <= 1.0
    ensures 0.0 <= a * a <= 1.0
  {
    if a >= 0.0 {
      assert a * a <= a * 1.0;
    } else {
      assert a * a == (-a) * (-a);
      assert (-a) * (-a) <= (-a) * 1.0;
    }
  }

  /** The rounded scalar is the quartic `1.5 - (u^2 - 1)^2` of the normalised index. */
  lemma RoundedIsQuartic(x: real, waveLength: int)
    requires waveLength > 0
    ensures var u := NormX(x, waveLength);
      Scalar(Rounded, x, waveLength) == 1.5 - (u * u - 1.0) * (u * u - 1.0)
  {
    QuarticForm(NormX(x, waveLength));
  }

  /** The rounded scalar is 1.5 at both ends of the pass. */
  lemma RoundedEnds(waveLength: int)
    requires waveLength > 0
    ensures Scalar(Rounded, 0.0, waveLength) == 1.5
    ensures Scalar(Rounded, waveLength as real, waveLength) == 1.5
  {
  }

  /** The rounded scalar is 0.5 at the midpoint; for an even count that is the index `waveLength / 2`. */
  lemma RoundedMidpoint(waveLength: int)
    requires waveLength > 0
    ensures Scalar(Rounded, waveLength as real / 2.0, waveLength) == 0.5
    ensures waveLength % 2 == 0 ==> Scalar(Rounded, (waveLength / 2) as real, waveLength) == 0.5
  {
    assert NormX(waveLength as real / 2.0, waveLength) == 0.0;
    if waveLength % 2 == 0 {
      assert (waveLength / 2) as real == waveLength as real / 2.0;
    }
  }

  /** The rounded curve is symmetric about the midpoint of the pass. */
  lemma RoundedSymmetric(x: real, waveLength: int)
    requires waveLength > 0
    ensures Scalar(Rounded, x, waveLength) == Scalar(Rounded, waveLength as real - x, waveLength)
  {
    var n := waveLength as real;
    assert NormX(n - x, waveLength) == -NormX(x, waveLength) by {
      assert (n - x) / n * n == n - x;
      assert (1.0 - x / n) * n == n - x;
      DivideOut(n, (n - x) / n, 1.0 - x / n);
    }
  }

  /** On the first half of the pass the rounded scalar only decreases. */
  lemma RoundedDecreasing(x: real, y: real, waveLength: int)
    requires waveLength > 0
    requires 0.0 <= x <= y <= waveLength as real / 2.0
    ensures Scalar(Rounded, y, waveLength) <= Scalar(Rounded, x, waveLength)
  {
    NormXFirstHalf(x, y, waveLength);
    QuarticFalling(NormX(x, waveLength), NormX(y, waveLength));
  }

  lemma NormXFirstHalf(x: real, y: real, waveLength: int)
    requires waveLength > 0
    requires 0.0 <= x <= y <= waveLength as real / 2.0
    ensures -1.0 <= NormX(x, waveLength) <= NormX(y, waveLength) <= 0.0
  {
    var n := waveLength as real;
    DivideMonotone(x, y, n);
    assert y / n <= 0.5 by {
      assert y / n * n == y;
    }
    NormXInRange(x, waveLength);
  }

  /** The quartic does not increase as `u` climbs from -1 to 0. */
  lemma QuarticFalling(a: real, b: real)
    requires -1.0 <= a <= b <= 0.0
    ensures Quartic(b) <= Quartic(a)
  {
    QuarticForm(a);
    QuarticForm(b);
    var va, vb := a * a, b * b;
    assert vb <= va by {
      assert va - vb == (b - a) * (-a - b);
      NonnegativeProduct(b - a, -a - b);
    }
    SquareOfUnit(a);
    SquareOfUnit(b);
    var p, q := va - 1.0, vb - 1.0;
    assert p * p <= q * q by {
      assert q * q - p * p == (p - q) * (-(p + q));
      NonnegativeProduct(p - q, -(p + q));
    }
  }

  lemma DivideMonotone(x: real, y: real, n: real)
    requires n > 0.0 && x <= y
    ensures x / n <= y / n
  {
  
  }

  lemma DivideOut(n: real, a: real, b: real)
    requires n > 0.0 && a * n == b * n
    ensures a == b
  {
    assert (a - b) * n == 0.0;
  }

  lemma NonnegativeProduct(a: real, b: real)
    requires 0.0 <= a && 0.0 <= b
    ensures 0.0 <= a * b
  {
  }
}

=== FILE: frames.dfy ===
/**
  The per-image frame schedule of one playback pass (`CreateFrames`). Each
  image of the pass gets a frame count from the average per-image duration
  and the shape's duration scalar; images whose count is not positive are
  skipped; the last image is padded toward the pass's target frame count.
  Decoded bitmaps are not modelled: a frame is the index of its image.
 */
module Frames {
  import opened Rounding
  import opened Easing

  /** How many frames an image with computed count `c` actually emits. */
  function Emitted(c: int): nat
  {
    if c > 0 then c else 0
  }

  /** Frames emitted by images `0 .. k - 1` under the per-image counts `eff`:
      the value of `frameCountTotal` when the loop reaches image `k`. */
  function Total(eff: seq<int>, k: nat): nat
    requires k <= |eff|
  {
    if k == 0 then 0 else Total(eff, k - 1) + Emitted(eff[k - 1])
  }

  /** `Repeat(x, c)`: `c` copies of `x`. */
  function Repeat(x: nat, c: nat): (r: seq<nat>)
    ensures |r| == c && forall j :: 0 <= j < c ==> r[j] == x
  {
    seq(c, _ => x)
  }

  /** The frames of images `0 .. k - 1`, image after image. */
  function Blocks(eff: seq<int>, k: nat): seq<nat>
    requires k <= |eff|
  {
    if k == 0 then [] else Blocks(eff, k - 1) + Repeat(k - 1, Emitted(eff[k - 1]))
  }

  /** The frames of images `0 .. k - 1`: image `i` fills exactly the block of
      positions `[Total(eff, i), Total(eff, i + 1))`, so images appear in input
      order, each `Emitted(eff[i])` times. */
  function Schedule(eff: seq<int>, k: nat): (f: seq<nat>)
    requires k <= |eff|
    ensures |f| == Total(eff, k)
    ensures forall j :: 0 <= j < |f| ==> f[j] < k && Total(eff, f[j]) <= j < Total(eff, f[j] + 1)
  {
    BlocksInPlace(eff, k);
    Blocks(eff, k)
  }

  lemma {:induction false} BlocksInPlace(eff: seq<int>, k: nat)
    requires k <= |eff|
    ensures |Blocks(eff, k)| == Total(eff, k)
    ensures forall j :: 0 <= j < Total(eff, k) ==>
      Blocks(eff, k)[j] < k && Total(eff, Blocks(eff, k)[j]) <= j < Total(eff, Blocks(eff, k)[j] + 1)
  {
    if k > 0 {
      BlocksInPlace(eff, k - 1);
      var front, back := Blocks(eff, k - 1), Repeat(k - 1, Emitted(eff[k - 1]));
      assert Blocks(eff, k) == front + back;
      forall j | 0 <= j < Total(eff, k)
        ensures Blocks(eff, k)[j] < k
        ensures Total(eff, Blocks(eff, k)[j]) <= j < Total(eff, Blocks(eff, k)[j] + 1)
      {
        if j >= |front| {
          assert Blocks(eff, k)[j] == back[j - |front|] == k - 1;
        } else {
          assert Blocks(eff, k)[j] == front[j];
          TotalMonotone(eff, front[j] + 1, k - 1);
        }
      }
    }
  }

  /** `(int)Math.Round(fps * fileDuration)`: the frames one image is shown for. */
  function FrameCount(fps: real, fileDuration: real): (r: int)
    ensures 0.0 <= fps && 0.0 <= fileDuration ==> 0 <= r
  {
    if 0.0 <= fps && 0.0 <= fileDuration then
      NonnegativeProduct(fps, fileDuration);
      RoundHalfEvenNonnegative(fps * fileDuration);
      RoundHalfEven(fps * fileDuration)
    else
      RoundHalfEven(fps * fileDuration)
  }

  /** Frame count of image `i` of a pass of `n` images before any padding:
      `round(fps * (duration / n) * scalar(i, n))`. */
  function BaseCount(i: nat, n: nat, duration: real, fps: real, shape: Shape): (r: int)
    requires i < n
    ensures 0.0 <= fps && 0.0 <= duration ==> 0 <= r
  {
    var s := Scalar(shape, i as real, n);
    var average := duration / n as real;
    if 0.0 <= duration then
      DivideNonnegative(duration, n);
      NonnegativeProduct(average, s);
      FrameCount(fps, average * s)
    else
      FrameCount(fps, average * s)
  }

  lemma DivideNonnegative(x: real, n: nat)
    requires 0.0 <= x && n > 0
    ensures 0.0 <= x / n as real
  {
  }

  /** With the linear shape every image of a pass gets the same count,
      `round(fps * duration / n)`. */
  lemma LinearCountsEqual(i: nat, n: nat, duration: real, fps: real)
    requires i < n
    ensures BaseCount(i, n, duration, fps, Linear) == FrameCount(fps, duration / n as real)
  {
    var average := duration / n as real;
    assert Scalar(Linear, i as real, n) == 1.0;
    assert average * 1.0 == average;
  }

  /** The unpadded counts of a pass of `n` images. */
  function Counts(n: nat, duration: real, fps: real, shape: Shape): (r: seq<int>)
    ensures |r| == n
    ensures forall i :: 0 <= i < n ==> r[i] == BaseCount(i, n, duration, fps, shape)
  {
    seq(n, i requires 0 <= i < n => BaseCount(i, n, duration, fps, shape))
  }

  /** `targetFrameCount = (int)Math.Round(fps * duration)`: the whole number
      of frames nearest to the pass's length at the given rate. */
  function TargetFrameCount(fps: real, duration: real): (r: int)
    ensures r as real - 0.5 <= fps * duration <= r as real + 0.5
    ensures 0.0 <= fps && 0.0 <= duration ==> 0 <= r
  {
    FrameCount(fps, duration)
  }

  /** The padding as written: the shortfall is measured from the total of the
      images before the last one, so the last image's own count is not taken
      into account. */
  function PadAsWritten(counts: seq<int>, target: int): (eff: seq<int>)
    ensures |eff| == |counts|
    ensures |counts| > 0 ==> eff[..|counts| - 1] == counts[..|counts| - 1]
    ensures |counts| > 0 ==> var last := |counts| - 1;
      && eff[last] >= counts[last]
      && (eff[last] > counts[last] <==> Total(counts, last) < target)
  {
    if |counts| == 0 then counts
    else
      var last := |counts| - 1;
      var before := Total(counts, last);
      counts[last := counts[last] + (if before < target then target - before else 0)]
  }

  /** `CreateFrames` as written: the frames of one pass, as image indices.
      Every image before the last is shown for exactly its own count, and the
      last for at least its own. */
  function CreateFrames(counts: seq<int>, target: int): (r: seq<nat>)
    ensures forall j :: 0 <= j < |r| ==> r[j] < |counts|
    ensures forall i :: 0 <= i < |counts| - 1 ==> multiset(r)[i] == Emitted(counts[i])
    ensures |counts| > 0 ==> multiset(r)[|counts| - 1] >= Emitted(counts[|counts| - 1])
  {
    var eff := PadAsWritten(counts, target);
    PaddedCounts(counts, eff);
    Schedule(eff, |counts|)
  }

  /** The schedule of a padding that keeps every count but the last and never
      lowers the last one. */
  lemma PaddedCounts(counts: seq<int>, eff: seq<int>)
    requires |eff| == |counts|
    requires |counts| > 0 ==> eff[..|counts| - 1] == counts[..|counts| - 1]
    requires |counts| > 0 ==> eff[|counts| - 1] >= counts[|counts| - 1]
    ensures forall i :: 0 <= i < |counts| - 1 ==>
      multiset(Schedule(eff, |counts|))[i] == Emitted(counts[i])
    ensures |counts| > 0 ==>
      multiset(Schedule(eff, |counts|))[|counts| - 1] >= Emitted(counts[|counts| - 1])
  {
    var n := |counts|;
    forall i | 0 <= i < n - 1
      ensures multiset(Schedule(eff, n))[i] == Emitted(counts[i])
    {
      ScheduleCounts(eff, n, i);
      assert eff[i] == eff[..n - 1][i] == counts[..n - 1][i];
    }
    if n > 0 {
      ScheduleCounts(eff, n, n - 1);
    }
  }

  /** The loop of `CreateFrames`, statement for statement: it yields the
      frames of the functional model above. */
  method CreateFramesLoop(counts: seq<int>, target: int) returns (frames: seq<nat>)
    ensures frames == CreateFrames(counts, target)
    ensures |frames| == Total(PadAsWritten(counts, target), |counts|)
  {
    ghost var eff := PadAsWritten(counts, target);
    var frameCountTotal := 0;
    frames := [];
    var i := 0;
    while i < |counts|
      invariant 0 <= i <= |counts|
      invariant frameCountTotal == Total(eff, i)
      invariant i < |counts| ==> Total(eff, i) == Total(counts, i)
      invariant frames == Schedule(eff, i)
    {
      var frameCount := counts[i];
      if i == |counts| - 1 && frameCountTotal < target {
        frameCount := frameCount + (target - frameCountTotal);
      }
      assert frameCount == eff[i];
      if frameCount <= 0 {
        i := i + 1;
        if i < |counts| {
          TotalOfSamePrefix(eff, counts, i);
        }
        continue;
      }
      var j := 0;
      while j < frameCount
        invariant 0 <= j <= frameCount
        invariant frames == Schedule(eff, i) + Repeat(i, j)
      {
        frames := frames + [i];
        j := j + 1;
      }
      frameCountTotal := frameCountTotal + frameCount;
      i := i + 1;
      if i < |counts| {
        TotalOfSamePrefix(eff, counts, i);
      }
    }
  }

  /** `Total` only looks at the counts before position `k`. */
  lemma {:induction false} TotalOfSamePrefix(a: seq<int>, b: seq<int>, k: nat)
    requires k <= |a| && k <= |b|
    requires a[..k] == b[..k]
    ensures Total(a, k) == Total(b, k)
  {
    if k > 0 {
      assert a[..k - 1] == a[..k][..k - 1] && b[..k - 1] == b[..k][..k - 1];
      assert a[k - 1] == a[..k][k - 1];
      TotalOfSamePrefix(a, b, k - 1);
    }
  }

  /** The exact total of the as-written padding, for non-negative counts: when
      the images before the last fall short of the target, the last image gets
      its own count on top of the shortfall, so the pass has `target + c_last`
      frames instead of `target`. */
  lemma AsWrittenTotal(counts: seq<int>, target: int)
    requires |counts| > 0
    requires forall i :: 0 <= i < |counts| ==> counts[i] >= 0
    ensures var last := |counts| - 1;
      var before := Total(counts, last);
      |CreateFrames(counts, target)| ==
        if before < target then target + counts[last] else before + counts[last]
  {
    var last := |counts| - 1;
    var eff := PadAsWritten(counts, target);
    TotalOfSamePrefix(eff, counts, last);
  }

  /** A concrete pass where the as-written padding overshoots: two images, 29
      fps, one second, linear shape. Each image rounds `14.5` to 14 frames, the
      target is 29, and the pass gets 43 frames. */
  lemma PaddingOvershoots()
    ensures Counts(2, 1.0, 29.0, Linear) == [14, 14]
    ensures TargetFrameCount(29.0, 1.0) == 29
    ensures |CreateFrames([14, 14], 29)| == 43
  {
    RoundHalfEvenUnique(14.5, 14);
    RoundHalfEvenUnique(29.0, 29);
    var c := Counts(2, 1.0, 29.0, Linear);
    assert c[0] == 14 && c[1] == 14;
    AsWrittenTotal([14, 14], 29);
    assert Total([14, 14], 1) == 14;
  }

  /** The padding as intended: the last image is topped up so that the pass
      reaches the target whenever the unpadded counts fall short of it. */
  function PadToTarget(counts: seq<int>, target: int): (eff: seq<int>)
    ensures |eff| == |counts|
    ensures |counts| > 0 ==> eff[..|counts| - 1] == counts[..|counts| - 1]
    ensures |counts| > 0 ==> var last := |counts| - 1;
      && eff[last] >= counts[last]
      && (eff[last] > counts[last] <==> Total(counts, last) + counts[last] < target)
  {
    if |counts| == 0 then counts
    else
      var last := |counts| - 1;
      var before := Total(counts, last);
      counts[last := if before + counts[last] < target then target - before else counts[last]]
  }

  /** The frames of one pass under the intended padding. Every image before
      the last is shown for exactly its own count, and the last for at least its own. */
  function CreateFramesToTarget(counts: seq<int>, target: int): (r: seq<nat>)
    ensures forall j :: 0 <= j < |r| ==> r[j] < |counts|
    ensures forall i :: 0 <= i < |counts| - 1 ==> multiset(r)[i] == Emitted(counts[i])
    ensures |counts| > 0 ==> multiset(r)[|counts| - 1] >= Emitted(counts[|counts| - 1])
  {
    var eff := PadToTarget(counts, target);
    PaddedCounts(counts, eff);
    Schedule(eff, |counts|)
  }

  /** With the intended padding a pass of non-negative counts has exactly the
      larger of its unpadded total and the target: the target is met exactly
      whenever the unpadded counts do not exceed it. */
  lemma ToTargetTotal(counts: seq<int>, target: int)
    requires |counts| > 0
    requires forall i :: 0 <= i < |counts| ==> counts[i] >= 0
    ensures var unpadded := Total(counts, |counts|);
      |CreateFramesToTarget(counts, target)| == if unpadded < target then target else unpadded
  {
    var last := |counts| - 1;
    var eff := PadToTarget(counts, target);
    TotalOfSamePrefix(eff, counts, last);
  }

  /** Every image of the schedule appears exactly as many times as it emits. */
  lemma ScheduleCounts(eff: seq<int>, k: nat, i: nat)
    requires k <= |eff|
    ensures multiset(Schedule(eff, k))[i] == if i < k then Emitted(eff[i]) else 0
  {
    BlocksCounts(eff, k, i);
  }

  lemma {:induction false} BlocksCounts(eff: seq<int>, k: nat, i: nat)
    requires k <= |eff|
    ensures multiset(Blocks(eff, k))[i] == if i < k then Emitted(eff[i]) else 0
  {
    if k > 0 {
      var front, back := Blocks(eff, k - 1), Repeat(k - 1, Emitted(eff[k - 1]));
      assert Blocks(eff, k) == front + back;
      BlocksCounts(eff, k - 1, i);
      RepeatCounts(k - 1, Emitted(eff[k - 1]), i);
      MultisetOfConcat(front, back, i);
    }
  }

  lemma MultisetOfConcat(a: seq<nat>, b: seq<nat>, i: nat)
    ensures multiset(a + b)[i] == multiset(a)[i] + multiset(b)[i]
  {
    var ab: seq<nat> := a + b;
    assert multiset(ab) == multiset(a) + multiset(b);
  }

  lemma {:induction false} RepeatCounts(x: nat, c: nat, i: nat)
    ensures multiset(Repeat(x, c))[i] == if i == x then c else 0
  {
    if c > 0 {
      RepeatCounts(x, c - 1, i);
      assert Repeat(x, c) == Repeat(x, c - 1) + [x];
    }
  }

  /** The schedule lists images in input order. */
  lemma {:induction false} ScheduleInOrder(eff: seq<int>, k: nat, a: nat, b: nat)
    requires k <= |eff|
    requires a <= b < |Schedule(eff, k)|
    ensures Schedule(eff, k)[a] <= Schedule(eff, k)[b]
  {
    var f := Schedule(eff, k);
    if f[a] > f[b] {
      TotalMonotone(eff, f[b] + 1, f[a]);
      assert false;
    }
  }

  lemma {:induction false} TotalMonotone(eff: seq<int>, x: nat, y: nat)
    requires x <= y <= |eff|
    ensures Total(eff, x) <= Total(eff, y)
  {
    if x < y {
      TotalMonotone(eff, x, y - 1);
    }
  }

  /** Which rule pads the last image of a pass: the one the code applies, or
      the one its comment describes. */
  datatype Padding = PaddedAsWritten | PaddedToTarget

  /** The frames of one pass of `n` images under the given padding rule. */
  function PassFrames(padding: Padding, n: nat, duration: real, fps: real, shape: Shape): (r: seq<nat>)
    ensures forall j :: 0 <= j < |r| ==> r[j] < n
    ensures forall i :: 0 <= i < n - 1 ==> multiset(r)[i] == Emitted(BaseCount(i, n, duration, fps, shape))
  {
    var counts := Counts(n, duration, fps, shape);
    var target := TargetFrameCount(fps, duration);
    match padding
    case PaddedAsWritten => CreateFrames(counts, target)
    case PaddedToTarget => CreateFramesToTarget(counts, target)
  }

  /** Under either padding rule a non-empty pass emits every image but the last
      its computed count, in input order, and at least `round(fps * duration)`
      frames in all. */
  lemma PassFramesMeetTarget(padding: Padding, n: nat, duration: real, fps: real, shape: Shape)
    requires n > 0 && 0.0 <= fps && 0.0 <= duration
    ensures |PassFrames(padding, n, duration, fps, shape)| >= TargetFrameCount(fps, duration)
    ensures forall i :: 0 <= i < n - 1 ==>
      multiset(PassFrames(padding, n, duration, fps, shape))[i] == BaseCount(i, n, duration, fps, shape)
  {
    var counts := Counts(n, duration, fps, shape);
    var target := TargetFrameCount(fps, duration);
    match padding
    case PaddedAsWritten =>
      AsWrittenTotal(counts, target);
    case PaddedToTarget =>
      ToTargetTotal(counts, target);
  }
}

=== FILE: results.dfy ===
/** Failure-carrying values shared by the other modules. */
module Results {

  /** A value that may be absent. */
  datatype Option<+T> = None | Some(value: T)

  /** The outcome of a step that either produces a value or stops with an error message. */
  datatype Result<+T> = Success(value: T) | Failure(error: string)
}

=== FILE: rounding.dfy ===
/**
  The two real-to-integer conversions the video code relies on: the C# cast
  `(int)x`, which truncates toward zero, and `Math.Round(x)`, whose default
  mode rounds to the nearest integer and breaks ties toward the even one.
  Both are modelled on exact reals; see README for the gap to IEEE doubles.
 */
module Rounding {

  /** `(int)x` for a finite `x` inside the `int` range: truncation toward zero. */
  function Trunc(x: real): (r: int)
    ensures 0.0 <= x ==> r as real <= x < r as real + 1.0
    ensures x < 0.0 ==> r as real - 1.0 < x <= r as real
  {
    if x >= 0.0 then x.Floor else -((-x).Floor)
  }

  /** `Math.Round(x)`: nearest integer, ties go to the even neighbour. */
  function RoundHalfEven(x: real): (r: int)
    ensures r as real - 0.5 <= x <= r as real + 0.5
    ensures x == r as real - 0.5 || x == r as real + 0.5 ==> r % 2 == 0
  {
    var f := x.Floor;
    var frac := x - f as real;
    if frac < 0.5 then f
    else if frac > 0.5 then f + 1
    else if f % 2 == 0 then f
    else f + 1
  }

  /** The two contracts above pin `RoundHalfEven` down completely: any integer
      within one half of `x`, even on a tie, is the rounded value. */
  lemma RoundHalfEvenUnique(x: real, k: int)
    requires k as real - 0.5 <= x <= k as real + 0.5
    requires x == k as real - 0.5 || x == k as real + 0.5 ==> k % 2 == 0
    ensures RoundHalfEven(x) == k
  {
  }

  /** Rounding never goes below zero for a non-negative argument. */
  lemma RoundHalfEvenNonnegative(x: real)
    requires 0.0 <= x
    ensures 0 <= RoundHalfEven(x)
  {
  }
}

=== FILE: text.dfy ===
/**
  The string operations the request handler uses: joining the accepted values
  into an error message, and turning the output path into a path relative to
  the web root (`Replace` of a character, `Replace` of a substring with the
  ordinal, left-to-right, non-overlapping semantics of .NET, and `TrimStart`).
 */
module Text {

  /** `string.Join(sep, items)`: the items in order with `sep` between
      neighbours; no items give the empty string and one item gives itself. */
  function Join(items: seq<string>, sep: string): (r: string)
    ensures |items| == 0 ==> r == ""
    ensures |items| == 1 ==> r == items[0]
  {
    if |items| == 0 then ""
    else if |items| == 1 then items[0]
    else items[0] + sep + Join(items[1..], sep)
  }

  /** A joined list starts with its first item and ends with its last. */
  lemma {:induction false} JoinEnds(items: seq<string>, sep: string)
    requires |items| > 0
    ensures items[0] <= Join(items, sep)
    ensures var r, last := Join(items, sep), items[|items| - 1];
      |last| <= |r| && r[|r| - |last|..] == last
    decreases |items|
  {
    if |items| > 1 {
      JoinEnds(items[1..], sep);
      var r, tail := Join(items, sep), Join(items[1..], sep);
      assert r == items[0] + sep + tail;
      assert items[|items| - 1] == items[1..][|items[1..]| - 1];
    }
  }

  /** Appending an item to a non-empty list appends the separator and the item:
      `sep` sits between every two neighbours, not only after the first. */
  lemma {:induction false} JoinSnoc(items: seq<string>, x: string, sep: string)
    requires |items| > 0
    ensures Join(items + [x], sep) == Join(items, sep) + sep + x
    decreases |items|
  {
    if |items| == 1 {
      assert items + [x] == [items[0], x];
      assert [items[0], x][1..] == [x];
    } else {
      assert (items + [x])[1..] == items[1..] + [x];
      JoinSnoc(items[1..], x, sep);
    }
  }

  /** `s.Replace(from, to)` on characters: every `from` becomes `to`, nothing else moves. */
  function ReplaceChar(s: string, from: char, to: char): (r: string)
    ensures |r| == |s|
    ensures from != to ==> from !in r
    ensures forall k :: 0 <= k < |s| && s[k] == from ==> r[k] == to
    ensures forall k :: 0 <= k < |s| && s[k] != from ==> r[k] == s[k]
    ensures from !in s ==> r == s
  {
    seq(|s|, k requires 0 <= k < |s| => if s[k] == from then to else s[k])
  }

  /** Replacing a character works piece by piece. */
  lemma ReplaceCharConcat(a: string, b: string, from: char, to: char)
    ensures ReplaceChar(a + b, from, to) == ReplaceChar(a, from, to) + ReplaceChar(b, from, to)
  {
  }

  /** `pat` occurs somewhere in `s`. */
  predicate Occurs(pat: string, s: string)
    requires |pat| > 0
    decreases |s|
  {
    |s| >= |pat| && (s[..|pat|] == pat || Occurs(pat, s[1..]))
  }

  /** `s.Replace(pat, rep)`: scans left to right and replaces each
      non-overlapping occurrence of `pat`. Every character of the result comes
      from `s` or from `rep`. */
  function ReplaceAll(s: string, pat: string, rep: string): (r: string)
    requires |pat| > 0
    ensures forall c :: c in r ==> c in s || c in rep
    decreases |s|
  {
    if |s| < |pat| then s
    else if s[..|pat|] == pat then rep + ReplaceAll(s[|pat|..], pat, rep)
    else [s[0]] + ReplaceAll(s[1..], pat, rep)
  }

  /** Without an occurrence of `pat`, replacing it changes nothing. */
  lemma {:induction false} ReplaceAbsent(s: string, pat: string, rep: string)
    requires |pat| > 0 && !Occurs(pat, s)
    ensures ReplaceAll(s, pat, rep) == s
    decreases |s|
  {
    if |s| >= |pat| {
      ReplaceAbsent(s[1..], pat, rep);
      assert [s[0]] + s[1..] == s;
    }
  }

  /** A leading occurrence is replaced and the scan resumes right after it. */
  lemma ReplaceLeading(s: string, pat: string, rep: string)
    requires |pat| > 0
    ensures ReplaceAll(pat + s, pat, rep) == rep + ReplaceAll(s, pat, rep)
  {
    assert (pat + s)[..|pat|] == pat;
    assert (pat + s)[|pat|..] == s;
  }

  /** `s.TrimStart(c)`: the longest suffix of `s` that does not start with `c`. */
  function TrimStart(s: string, c: char): (r: string)
    ensures |r| <= |s| && r == s[|s| - |r|..]
    ensures forall k :: 0 <= k < |s| - |r| ==> s[k] == c
    ensures |r| > 0 ==> r[0] != c
    decreases |s|
  {
    if |s| > 0 && s[0] == c then TrimStart(s[1..], c) else s
  }
}

=== FILE: video.dfy ===
/**
  The `ImageAsVideo` request: validation of the request against the fixed
  lists of accepted values, the playback period, the frame budget, the
  downselection of the candidate images, the playback order of the passes,
  the smoothing filter handed to the encoder and the relative path of the
  result. The file system and the encoder are not modelled: whether the input
  file exists, the filtered and creation-time-sorted candidate list, and the
  success of each encoder run are inputs.
 */
module Video {
  import opened Results
  import opened Rounding
  import opened Text
  import opened Easing
  import opened Selection
  import opened Frames

  /** `const double FPS = 30000/1001` as written: the division is between two
      integers, so the constant is 29 and not 29.97. */
  const FpsAsWritten: real := (30000 / 1001) as real

  /** The intended NTSC rate of 30000/1001 frames per second. */
  const Fps: real := 30000.0 / 1001.0

  /** How the handler's two defects are read: `AsWritten` is the code as it
      stands (29 fps, and the last image padded from the total before it);
      `AsIntended` corrects both as the source's comments describe. */
  datatype Reading = AsWritten | AsIntended

  /** The frame rate the handler works with under each reading. */
  function Rate(reading: Reading): (r: real)
    ensures r >= 29.0
    ensures reading == AsWritten ==> r == 29.0
    ensures reading == AsIntended ==> 29.97 < r < 29.98
  {
    match reading
    case AsWritten => FpsAsWritten
    case AsIntended => Fps
  }

  /** The padding rule of `CreateFrames` under each reading. */
  function PaddingFor(reading: Reading): Padding
  {
    match reading
    case AsWritten => PaddedAsWritten
    case AsIntended => PaddedToTarget
  }

  const FrameEffects: seq<string> := ["ping", "pong", "ping-pong"]
  const FrameEffectShapes: seq<string> := ["linear", "rounded"]
  /** Listed in the source but never checked against the request. */
  const FrameSmoothingOptions: seq<string> := ["off", "fast", "quality"]

  /** The playback pattern: forward, backward, or forward then backward. */
  datatype Effect = Ping | Pong | PingPong

  function EffectName(e: Effect): string
  {
    match e
    case Ping => "ping"
    case Pong => "pong"
    case PingPong => "ping-pong"
  }

  /** The effect a request names, if it names one of the accepted values. */
  function ParseEffect(s: string): (r: Option<Effect>)
    ensures r.Some? <==> s in FrameEffects
    ensures r.Some? ==> EffectName(r.value) == s
  {
    if s == "ping" then Some(Ping)
    else if s == "pong" then Some(Pong)
    else if s == "ping-pong" then Some(PingPong)
    else None
  }

  lemma EffectNameRoundTrip(e: Effect)
    ensures EffectName(e) in FrameEffects
    ensures ParseEffect(EffectName(e)) == Some(e)
  {
  }

  function ShapeName(s: Shape): string
  {
    match s
    case Linear => "linear"
    case Rounded => "rounded"
  }

  /** The shape a request names, if it names one of the accepted values. */
  function ParseShape(s: string): (r: Option<Shape>)
    ensures r.Some? <==> s in FrameEffectShapes
    ensures r.Some? ==> ShapeName(r.value) == s
  {
    if s == "linear" then Some(Linear)
    else if s == "rounded" then Some(Rounded)
    else None
  }

  lemma ShapeNameRoundTrip(s: Shape)
    ensures ShapeName(s) in FrameEffectShapes
    ensures ParseShape(ShapeName(s)) == Some(s)
  {
  }

  /** The request parameters. `duration` is in whole seconds. */
  datatype Request = Request(
    wwwRoot: string,
    inputPath: string,
    outputPath: string,
    frameEffect: string,
    frameEffectShape: string,
    frameSmoothing: string,
    duration: int)

  /** The validated part of a request. */
  datatype Settings = Settings(effect: Effect, shape: Shape, duration: int)

  /** The response object: an error message, the relative video path, or an
      exception that escapes the handler. */
  datatype Response = Error(message: string) | VideoPath(path: string) | Raised(exception: string)

  const PathMissing: string := "The provided path does not exist."
  const EffectInvalid: string :=
    "The frame effect must be one of the following: " + Join(FrameEffects, ", ") + "."
  const ShapeInvalid: string :=
    "The frame effect shape must be one of the following: " + Join(FrameEffectShapes, ", ") + "."
  const DurationInvalid: string := "The duration must be greater than 0."
  const NotEnoughImages: string :=
    "There are not enough images of that extension and resolution in the current folder to generate a video."
  const PingFailed: string := "Failed to generate ping video."
  const PongFailed: string := "Failed to generate pong video."
  const EncodeFailed: string := "Failed to generate video."

  /** The four checks, in the order the handler makes them; the first that
      fails decides the error and nothing after it is looked at. */
  function Validate(req: Request, inputExists: bool): (r: Result<Settings>)
    ensures r.Success? <==>
      inputExists && req.frameEffect in FrameEffects
      && req.frameEffectShape in FrameEffectShapes && req.duration > 0
    ensures !inputExists ==> r == Failure(PathMissing)
    ensures inputExists && req.frameEffect !in FrameEffects ==> r == Failure(EffectInvalid)
    ensures inputExists && req.frameEffect in FrameEffects && req.frameEffectShape !in FrameEffectShapes
      ==> r == Failure(ShapeInvalid)
    ensures inputExists && req.frameEffect in FrameEffects
      && req.frameEffectShape in FrameEffectShapes && req.duration <= 0
      ==> r == Failure(DurationInvalid)
    ensures r.Success? ==>
      && EffectName(r.value.effect) == req.frameEffect
      && ShapeName(r.value.shape) == req.frameEffectShape
      && r.value.duration == req.duration >= 1
  {
    if !inputExists then Failure(PathMissing)
    else
      match ParseEffect(req.frameEffect)
      case None => Failure(EffectInvalid)
      case Some(effect) =>
        match ParseShape(req.frameEffectShape)
        case None => Failure(ShapeInvalid)
        case Some(shape) =>
          if req.duration <= 0 then Failure(DurationInvalid)
          else Success(Settings(effect, shape, req.duration))
  }

  /** The listed smoothing values select no interpolation, blending and
      motion-compensated interpolation respectively. */
  lemma SmoothingOptionsModes()
    ensures InterpolationFor(FrameSmoothingOptions[0]) == NoInterpolation
    ensures InterpolationFor(FrameSmoothingOptions[1]) == Blend
    ensures InterpolationFor(FrameSmoothingOptions[2]) == MotionCompensated
  {
  }

  /** The list messages name the accepted values separated by commas. */
  lemma MessagesListValues()
    ensures Join(FrameEffects, ", ") == "ping, pong, ping-pong"
    ensures Join(FrameEffectShapes, ", ") == "linear, rounded"
  {
    JoinSnoc(["ping"], "pong", ", ");
    assert ["ping"] + ["pong"] == ["ping", "pong"];
    JoinSnoc(["ping", "pong"], "ping-pong", ", ");
    assert ["ping", "pong"] + ["ping-pong"] == FrameEffects;
    JoinSnoc(["linear"], "rounded", ", ");
    assert ["linear"] + ["rounded"] == FrameEffectShapes;
  }

  /** The smoothing mode is not validated: it has no influence on the checks. */
  lemma SmoothingNotValidated(req: Request, inputExists: bool, smoothing: string)
    ensures Validate(req.(frameSmoothing := smoothing), inputExists) == Validate(req, inputExists)
  {
  }

  /** The duration of one pass: half the requested duration for ping-pong,
      which plays two passes, the whole duration otherwise. */
  function PeriodDuration(effect: Effect, duration: int): (r: real)
    ensures (if effect == PingPong then 2.0 else 1.0) * r == duration as real
    ensures duration >= 0 ==> 0.0 <= r <= duration as real
  {
    if effect == PingPong then duration as real * 0.5 else duration as real
  }

  /** `(int)(periodDuration * FPS)`: the most images the period can show. */
  function MaxImages(periodDuration: real, fps: real): (r: int)
    ensures 0.0 <= periodDuration * fps ==> r as real <= periodDuration * fps < r as real + 1.0
    ensures periodDuration * fps < 0.0 ==> r as real - 1.0 < periodDuration * fps <= r as real
  {
    Trunc(periodDuration * fps)
  }

  /** With any rate of at least 29 fps and any accepted duration, the budget is
      at least 14 images, so the stride `n / maxImages` never divides by zero. */
  lemma BudgetAtLeastFourteen(effect: Effect, duration: int, fps: real)
    requires duration >= 1 && fps >= 29.0
    ensures MaxImages(PeriodDuration(effect, duration), fps) >= 14
  {
    var p := PeriodDuration(effect, duration);
    assert p >= 0.5;
    assert p * fps >= 0.5 * 29.0 by {
      assert p * fps - 0.5 * 29.0 == (p - 0.5) * fps + 0.5 * (fps - 29.0);
      NonnegativeProduct(p - 0.5, fps);
    }
  }

  /** The constant as written is exactly 29, short of the intended rate: a
      two-second "ping" gets a budget of 58 images and a ten-second pass a
      target of 290 frames. */
  lemma FpsAsWrittenIsTwentyNine()
    ensures FpsAsWritten == 29.0
    ensures FpsAsWritten < Fps
    ensures MaxImages(PeriodDuration(Ping, 2), FpsAsWritten) == 58
    ensures TargetFrameCount(FpsAsWritten, PeriodDuration(Ping, 10)) == 290
  {
    RoundHalfEvenUnique(290.0, 290);
  }

  /** The budget the code computes with 29 fps: `29 * duration` images for a
      single pass and `floor(14.5 * duration)` for each ping-pong pass. */
  lemma BudgetAsWritten(effect: Effect, duration: int)
    requires duration >= 1
    ensures MaxImages(PeriodDuration(effect, duration), FpsAsWritten)
      == if effect == PingPong then 29 * duration / 2 else 29 * duration
  {
    var p := PeriodDuration(effect, duration);
    if effect == PingPong {
      assert p * 29.0 == (29 * duration) as real / 2.0;
      var k := 29 * duration / 2;
      assert k as real <= (29 * duration) as real / 2.0 < k as real + 1.0;
    } else {
      assert p * 29.0 == (29 * duration) as real;
    }
  }

  /** At the intended rate of about 29.97 fps a two-second "ping" gets a
      budget of 59 images and a ten-second pass a target of 300 frames. */
  lemma IntendedRate()
    ensures 29.97 < Fps < 29.98
    ensures MaxImages(PeriodDuration(Ping, 2), Fps) == 59
    ensures TargetFrameCount(Fps, PeriodDuration(Ping, 10)) == 300
  {
    assert 10.0 * Fps == 300000.0 / 1001.0;
    RoundHalfEvenUnique(300000.0 / 1001.0, 300);
  }

  /** `list.Reverse()`. */
  function Reverse<T>(s: seq<T>): (r: seq<T>)
    ensures |r| == |s|
    ensures forall k :: 0 <= k < |s| ==> r[k] == s[|s| - 1 - k]
  {
    if |s| == 0 then [] else Reverse(s[1..]) + [s[0]]
  }

  /** The passes the encoder receives, in order: the list for "ping", the
      reversed list for "pong", the list then the reversed list for "ping-pong". */
  function Passes<T>(effect: Effect, files: seq<T>): (r: seq<seq<T>>)
    ensures |r| == if effect == PingPong then 2 else 1
    ensures effect != Pong ==> r[0] == files
    ensures effect != Ping ==> r[|r| - 1] == Reverse(files)
  {
    match effect
    case Ping => [files]
    case Pong => [Reverse(files)]
    case PingPong => [files, Reverse(files)]
  }

  /** Every pass holds the same images as the list, and the periods of the
      passes add up to the requested duration. The frame stream itself can be
      longer, because each pass pads its own last image. */
  lemma PassesCoverDuration<T>(effect: Effect, duration: int, files: seq<T>)
    ensures |Passes(effect, files)| as real * PeriodDuration(effect, duration) == duration as real
    ensures forall k :: 0 <= k < |Passes(effect, files)| ==>
      multiset(Passes(effect, files)[k]) == multiset(files)
  {
    ReverseSameElements(files);
  }

  lemma PassesKeepLength<T>(effect: Effect, files: seq<T>)
    ensures forall k :: 0 <= k < |Passes(effect, files)| ==> |Passes(effect, files)[k]| == |files|
  {
  }

  lemma ReverseSameElements<T>(s: seq<T>)
    ensures multiset(Reverse(s)) == multiset(s)
  {
    if |s| > 0 {
      ReverseSameElements(s[1..]);
      assert s == [s[0]] + s[1..];
    }
  }

  /** The forward list followed by the reversed list reads the same backwards.
      The frame stream does not in general: each pass pads its own last image,
      and the rounded scalar at position i differs from the one at n-1-i. */
  lemma PingPongIsPalindrome<T>(files: seq<T>)
    ensures var p := Passes(PingPong, files); Reverse(p[0] + p[1]) == p[0] + p[1]
  {
    var p := Passes(PingPong, files);
    var s := p[0] + p[1];
    var n := |files|;
    forall k | 0 <= k < |s|
      ensures Reverse(s)[k] == s[k]
    {
      if k < n {
        assert Reverse(s)[k] == s[2 * n - 1 - k] == Reverse(files)[n - 1 - k];
      } else {
        assert Reverse(s)[k] == s[2 * n - 1 - k] == files[2 * n - 1 - k];
      }
    }
  }

  /** The interpolation `ToFile` asks of the encoder. */
  datatype Interpolation = NoInterpolation | Blend | MotionCompensated

  /** "fast" blends, "quality" interpolates motion; "off" and every value
      outside the list alike turn smoothing off. */
  function InterpolationFor(frameSmoothing: string): (r: Interpolation)
    ensures r == Blend <==> frameSmoothing == "fast"
    ensures r == MotionCompensated <==> frameSmoothing == "quality"
    ensures r == NoInterpolation <==> frameSmoothing != "fast" && frameSmoothing != "quality"
  {
    if frameSmoothing == "fast" then Blend
    else if frameSmoothing == "quality" then MotionCompensated
    else NoInterpolation
  }

  /** The custom encoder argument: empty without smoothing, otherwise a
      `minterpolate` filter at `fpsText` frames per second in the chosen mode. */
  function CustomArgs(mode: Interpolation, fpsText: string): (r: string)
    ensures r == "" <==> mode == NoInterpolation
    ensures mode != NoInterpolation ==>
      "-vf minterpolate='fps=" + fpsText + ":mi_mode=" <= r
    ensures mode == Blend ==> |r| >= 6 && r[|r| - 6..] == "blend'"
    ensures mode == MotionCompensated ==> |r| >= 4 && r[|r| - 4..] == "mci'"
  {
    match mode
    case NoInterpolation => ""
    case Blend => "-vf minterpolate='fps=" + fpsText + ":mi_mode=blend'"
    case MotionCompensated => "-vf minterpolate='fps=" + fpsText + ":mi_mode=mci'"
  }

  /** The output path relative to the web root: backslashes become slashes,
      every occurrence of the web root is removed, and leading slashes are
      trimmed. An empty web root makes `Replace` throw. */
  function RelativePath(outputPath: string, wwwRoot: string): (r: Option<string>)
    ensures r.Some? <==> |wwwRoot| > 0
    ensures r.Some? ==> '\\' !in r.value
    ensures r.Some? && |r.value| > 0 ==> r.value[0] != '/'
  {
    if |wwwRoot| == 0 then None
    else
      var path := ReplaceChar(outputPath, '\\', '/');
      var root := ReplaceChar(wwwRoot, '\\', '/');
      Some(TrimStart(ReplaceAll(path, root, ""), '/'))
  }

  /** A file below the web root comes back as its path below the root, with
      backslashes turned into slashes, whichever separator follows the root. */
  lemma RelativePathBelowRoot(root: string, sep: char, rest: string)
    requires |root| > 0 && (sep == '/' || sep == '\\')
    requires var nrest := ReplaceChar(rest, '\\', '/');
      |nrest| == 0 || nrest[0] != '/'
    requires !Occurs(ReplaceChar(root, '\\', '/'), "/" + ReplaceChar(rest, '\\', '/'))
    ensures RelativePath(root + [sep] + rest, root) == Some(ReplaceChar(rest, '\\', '/'))
  {
    var nroot, nrest := ReplaceChar(root, '\\', '/'), ReplaceChar(rest, '\\', '/');
    var tail := "/" + nrest;
    ReplaceCharConcat(root + [sep], rest, '\\', '/');
    ReplaceCharConcat(root, [sep], '\\', '/');
    assert ReplaceChar([sep], '\\', '/') == "/";
    assert ReplaceChar(root + [sep] + rest, '\\', '/') == nroot + tail;
    ReplaceLeading(tail, nroot, "");
    ReplaceAbsent(tail, nroot, "");
    assert ReplaceAll(nroot + tail, nroot, "") == tail;
    TrimOneSlash(nrest);
  }

  /** A Windows path under a Windows web root. */
  lemma WindowsPathBelowRoot()
    ensures RelativePath("C:\\www\\out\\v.mp4", "C:\\www") == Some("out/v.mp4")
  {
    var rest := "out\\v.mp4";
    assert "C:\\www\\out\\v.mp4" == "C:\\www" + ['\\'] + rest;
    assert ReplaceChar(rest, '\\', '/') == "out/v.mp4";
    assert ReplaceChar("C:\\www", '\\', '/') == "C:/www";
    var pat := "C:/www";
    NotOccursAtStart(pat, "v.mp4");
    NotOccursAtStart(pat, "/v.mp4");
    NotOccursAtStart(pat, "t/v.mp4");
    NotOccursAtStart(pat, "ut/v.mp4");
    NotOccursAtStart(pat, "out/v.mp4");
    NotOccursAtStart(pat, "/out/v.mp4");
    RelativePathBelowRoot("C:\\www", '\\', rest);
  }

  /** `pat` does not occur in `s` when it does not start `s` and does not occur
      in the rest. */
  lemma NotOccursAtStart(pat: string, s: string)
    requires |pat| > 0
    requires |s| >= |pat| ==> s[0] != pat[0] && !Occurs(pat, s[1..])
    ensures !Occurs(pat, s)
  {
    if |s| >= |pat| {
      assert s[..|pat|][0] != pat[0];
    }
  }

  lemma TrimOneSlash(rest: string)
    requires |rest| == 0 || rest[0] != '/'
    ensures TrimStart("/" + rest, '/') == rest
  {
    assert ("/" + rest)[1..] == rest;
  }

  /** What is ready for the encoder once the request is accepted. */
  datatype Plan<T> = Plan(
    reading: Reading,
    settings: Settings,
    maxImages: int,
    files: seq<T>,
    passes: seq<seq<T>>,
    interpolation: Interpolation)

  /** Everything `ImageAsVideo` decides before the first encoder run, given
      whether the input exists and the candidate images of the same extension
      and resolution, already sorted by creation time. */
  function Prepare<T>(req: Request, inputExists: bool, candidates: seq<T>, reading: Reading): (r: Result<Plan<T>>)
    ensures Validate(req, inputExists).Failure? ==> r == Failure(Validate(req, inputExists).error)
    ensures Validate(req, inputExists).Success? && |candidates| < 2 ==> r == Failure(NotEnoughImages)
    ensures r.Success? <==> Validate(req, inputExists).Success? && |candidates| >= 2
    ensures r.Success? ==>
      var p := r.value;
      && p.reading == reading
      && p.settings == Validate(req, inputExists).value
      && p.maxImages == MaxImages(PeriodDuration(p.settings.effect, p.settings.duration), Rate(reading))
      && (reading == AsWritten ==>
            p.maxImages == if p.settings.effect == PingPong then 29 * req.duration / 2 else 29 * req.duration)
      && p.maxImages >= 14
      && p.files == Downselect(candidates, p.maxImages)
      && 2 <= |p.files| <= p.maxImages
      && (|candidates| <= p.maxImages ==> p.files == candidates)
      && p.passes == Passes(p.settings.effect, p.files)
      && p.interpolation == InterpolationFor(req.frameSmoothing)
      && (p.interpolation == Blend <==> req.frameSmoothing == "fast")
      && (p.interpolation == MotionCompensated <==> req.frameSmoothing == "quality")
  {
    match Validate(req, inputExists)
    case Failure(e) => Failure(e)
    case Success(settings) =>
      if |candidates| < 2 then Failure(NotEnoughImages)
      else
        var period := PeriodDuration(settings.effect, settings.duration);
        BudgetAtLeastFourteen(settings.effect, settings.duration, Rate(reading));
        BudgetAsWritten(settings.effect, settings.duration);
        var maxImages := MaxImages(period, Rate(reading));
        var files := Downselect(candidates, maxImages);
        Success(Plan(reading, settings, maxImages, files, Passes(settings.effect, files),
                     InterpolationFor(req.frameSmoothing)))
  }

  /** Whether each encoder run succeeds: the forward pass, the reversed pass,
      and the final write of the file. */
  datatype Encoder = Encoder(pingOk: bool, pongOk: bool, fileOk: bool)

  /** The encoder runs the effect performs all succeed: the forward pass unless
      the effect is "pong", the reversed pass unless it is "ping". */
  predicate RunsSucceed(effect: Effect, enc: Encoder)
  {
    (effect != Pong ==> enc.pingOk) && (effect != Ping ==> enc.pongOk)
  }

  /** The whole handler. The first failure decides the response: planning,
      then the forward run, then the reversed run, then the final encode; an
      empty web root makes the path computation throw. */
  function ImageAsVideo<T>(req: Request, inputExists: bool, candidates: seq<T>, enc: Encoder, reading: Reading)
    : (r: Response)
    ensures var plan := Prepare(req, inputExists, candidates, reading);
      && (plan.Failure? ==> r == Error(plan.error))
      && (plan.Success? && plan.value.settings.effect != Pong && !enc.pingOk ==> r == Error(PingFailed))
      && ((plan.Success? && (plan.value.settings.effect == Pong || enc.pingOk)
           && plan.value.settings.effect != Ping && !enc.pongOk) ==> r == Error(PongFailed))
      && ((plan.Success? && RunsSucceed(plan.value.settings.effect, enc) && !enc.fileOk)
           ==> r == Error(EncodeFailed))
      && (r.VideoPath? <==>
            plan.Success? && RunsSucceed(plan.value.settings.effect, enc) && enc.fileOk && |req.wwwRoot| > 0)
      && (r.VideoPath? ==> Some(r.path) == RelativePath(req.outputPath, req.wwwRoot))
      && (r.Raised? <==>
            plan.Success? && RunsSucceed(plan.value.settings.effect, enc) && enc.fileOk && |req.wwwRoot| == 0)
  {
    match Prepare(req, inputExists, candidates, reading)
    case Failure(e) => Error(e)
    case Success(plan) =>
      var effect := plan.settings.effect;
      if effect != Pong && !enc.pingOk then Error(PingFailed)
      else if effect != Ping && !enc.pongOk then Error(PongFailed)
      else if !enc.fileOk then Error(EncodeFailed)
      else
        match RelativePath(req.outputPath, req.wwwRoot)
        case None => Raised("ArgumentException")
        case Some(path) => VideoPath(path)
  }

  /** Which encoder runs matter: "pong" never runs the forward pass and "ping"
      never runs the reversed one. */
  lemma OnlyRunPassesMatter<T>(req: Request, inputExists: bool, candidates: seq<T>, enc: Encoder, reading: Reading)
    requires Prepare(req, inputExists, candidates, reading).Success?
    ensures var effect := Prepare(req, inputExists, candidates, reading).value.settings.effect;
      && (effect == Pong ==>
            ImageAsVideo(req, inputExists, candidates, enc.(pingOk := !enc.pingOk), reading)
            == ImageAsVideo(req, inputExists, candidates, enc, reading))
      && (effect == Ping ==>
            ImageAsVideo(req, inputExists, candidates, enc.(pongOk := !enc.pongOk), reading)
            == ImageAsVideo(req, inputExists, candidates, enc, reading))
  {
  }

  /** The rate decides which images are kept: a ten-second "ping" over 295
      candidates has a budget of 290 as written, so the code drops at least
      five images, while the intended budget of 299 keeps them all. */
  lemma RateSetsSelection<T>(req: Request, candidates: seq<T>)
    requires req.frameEffect == "ping" && req.frameEffectShape in FrameEffectShapes
    requires req.duration == 10 && |candidates| == 295
    ensures Prepare(req, true, candidates, AsWritten).Success?
    ensures |Prepare(req, true, candidates, AsWritten).value.files| <= 290
    ensures Prepare(req, true, candidates, AsIntended).Success?
    ensures Prepare(req, true, candidates, AsIntended).value.files == candidates
  {
    var settings := Validate(req, true).value;
    assert settings.effect == Ping;
    assert PeriodDuration(Ping, 10) * Fps == 300000.0 / 1001.0;
    assert MaxImages(PeriodDuration(Ping, 10), Fps) == 299;
  }

  /** The frames the encoder receives for one pass, as images. */
  function PassImages<T>(pass: seq<T>, periodDuration: real, shape: Shape, reading: Reading): (r: seq<T>)
    ensures |pass| == 0 ==> r == []
    ensures forall k :: 0 <= k < |r| ==> r[k] in pass
  {
    var frames := PassFrames(PaddingFor(reading), |pass|, periodDuration, Rate(reading), shape);
    Select(pass, frames)
  }

  /** The frames of the whole video: the passes one after another. */
  function VideoFrames<T>(plan: Plan<T>): (r: seq<T>)
    requires forall k :: 0 <= k < |plan.passes| ==> |plan.passes[k]| > 0
    ensures |plan.passes| == 0 ==> r == []
    ensures forall k :: 0 <= k < |r| ==> exists p :: 0 <= p < |plan.passes| && r[k] in plan.passes[p]
    decreases |plan.passes|
  {
    if |plan.passes| == 0 then []
    else
      var period := PeriodDuration(plan.settings.effect, plan.settings.duration);
      var last := |plan.passes| - 1;
      VideoFrames(plan.(passes := plan.passes[..last]))
        + PassImages(plan.passes[last], period, plan.settings.shape, plan.reading)
  }

  /** The frame target of one pass of the plan. */
  function PassTarget<T>(plan: Plan<T>): int
  {
    TargetFrameCount(Rate(plan.reading), PeriodDuration(plan.settings.effect, plan.settings.duration))
  }

  /** Each pass reaches the frame target of its period, so the whole video has
      at least one target's worth of frames per pass. */
  lemma {:induction false} VideoMeetsTargets<T>(plan: Plan<T>)
    requires forall k :: 0 <= k < |plan.passes| ==> |plan.passes[k]| > 0
    requires plan.settings.duration >= 0
    ensures |VideoFrames(plan)| >= |plan.passes| * PassTarget(plan)
    decreases |plan.passes|
  {
    if |plan.passes| > 0 {
      var last := |plan.passes| - 1;
      var front := plan.(passes := plan.passes[..last]);
      VideoMeetsTargets(front);
      LastPassMeetsTarget(plan);
      AddTargets(|VideoFrames(front)|, |VideoFrames(plan)| - |VideoFrames(front)|, |plan.passes|, PassTarget(plan));
    }
  }

  /** The last pass adds at least one target's worth of frames. */
  lemma LastPassMeetsTarget<T>(plan: Plan<T>)
    requires forall k :: 0 <= k < |plan.passes| ==> |plan.passes[k]| > 0
    requires plan.settings.duration >= 0 && |plan.passes| > 0
    ensures |VideoFrames(plan)| - |VideoFrames(plan.(passes := plan.passes[..|plan.passes| - 1]))|
      >= PassTarget(plan)
  {
    var period := PeriodDuration(plan.settings.effect, plan.settings.duration);
    var last := |plan.passes| - 1;
    var front := plan.(passes := plan.passes[..last]);
    var now := PassImages(plan.passes[last], period, plan.settings.shape, plan.reading);
    assert VideoFrames(plan) == VideoFrames(front) + now;
    PassImagesMeetTarget(plan.passes[last], period, plan.settings.shape, plan.reading);
  }

  lemma AddTargets(before: int, now: int, m: int, t: int)
    requires before >= (m - 1) * t && now >= t
    ensures before + now >= m * t
  {
    assert m * t == (m - 1) * t + t;
  }

  lemma PassImagesMeetTarget<T>(pass: seq<T>, periodDuration: real, shape: Shape, reading: Reading)
    requires |pass| > 0 && 0.0 <= periodDuration
    ensures |PassImages(pass, periodDuration, shape, reading)| >= TargetFrameCount(Rate(reading), periodDuration)
  {
    PassFramesMeetTarget(PaddingFor(reading), |pass|, periodDuration, Rate(reading), shape);
  }

  /** An accepted request yields a video of at least one target's worth of
      frames per pass: one for "ping" or "pong", two for "ping-pong". */
  lemma PreparedVideoMeetsTargets<T>(req: Request, inputExists: bool, candidates: seq<T>, reading: Reading)
    requires Prepare(req, inputExists, candidates, reading).Success?
    ensures var plan := Prepare(req, inputExists, candidates, reading).value;
      && (forall k :: 0 <= k < |plan.passes| ==> |plan.passes[k]| >= 2)
      && |VideoFrames(plan)| >= |plan.passes| * PassTarget(plan)
  {
    var plan := Prepare(req, inputExists, candidates, reading).value;
    assert plan.passes == Passes(plan.settings.effect, plan.files);
    assert |plan.files| >= 2 && plan.settings.duration >= 1;
    PassesKeepLength(plan.settings.effect, plan.files);
    VideoMeetsTargets(plan);
  }
}
